=== FILE: README.md ===
# Order intake and notification, modelled in Dafny

This project models the order pipeline of a Next.js storefront:

- the order-placement endpoint, which checks the request, snapshots catalog products, prices the order, creates it and clears the caller's cart;
- the batch handler for `order/created` events, which bulk-inserts orders and then attempts one confirmation mail per created order;
- the status-mail endpoint;
- the two mail modules;
- the Mongoose `order` schema.

Every collaborator is abstract:

- the database connection;
- the catalog lookup (`Product.findById`) and the order lookup;
- the document write and the `_id`s it assigns;
- the cart reset on the user record;
- the SMTP transport.

Each collaborator is a function value that returns a value or a failure. Every handler is a pure function. It returns its reply and the ordered trace of collaborator calls it made (`Effects.Run`). Claims about whether an effect happens, and in what order, are therefore statements about that trace.

Modules, one per source file plus shared pieces:

| module | models |
|---|---|
| `Common` | optional values, results, outcomes, the TypeError message of a property read on `undefined`/`null` |
| `OrderSchema` | models/Order.js |
| `Effects` | mails, send results, the effect trace, the transporter factory and the shared "send and wrap" step |
| `Store` | the abstract database, with `Order.create` and `Order.insertMany` as validate-then-write |
| `EmailService` | lib/emailService.js |
| `EmailConfig` | config/email.js |
| `OrderIntake` | app/api/order/create/route.js |
| `BatchProcessor` | `createUserOrder` in config/inngest.js |
| `StatusEmail` | app/api/order/send-status-email/route.js |

Prices, quantities and amounts are integers in the source's own price unit, which the mails print as dollars. Fractional prices are not modelled. In exact arithmetic, `Math.floor(s * 0.02)` is `(2 * s) / 100`, which is `s / 50`. Dafny's division rounds down for a positive divisor, so this also holds for negative `s`.

Several features one might expect in such a pipeline are not in the code:

- a deferred intake mode that hands orders to the batcher;
- an identity lookup for the recipient of the batch mails;
- per-order notification outcomes in the batch result;
- a status state machine;
- the batcher's size-or-timeout flush logic.

The model follows the code. The intake writes the order directly and sends no mail. The batch mail goes to `address.email`. The batch reply is only `{success: true, processed}`. The flush logic belongs to the event library, so the batch is an input list.

The mail findings below rest on two assumptions about the mail library; no proof can establish either:

- nodemailer exports the transport factory `createTransport` and nothing named `createTransporter` (`Effects.TransportFactory`, `Effects.MakeTransporter`);
- calling the missing factory throws a TypeError whose message is `"nodemailer.createTransporter is not a function"`. This is the wording of unbundled Node; a bundler that rewrites the import changes the name in the message.

## Model

| member | source | states |
|---|---|---|
| OrderSchema.Validate | models/Order.js:4-22 | A draft is accepted exactly when these all hold: `userId` is non-empty; `amount` and `date` are present; all seven address fields are present; every item has a product and a quantity; `status` is not set to an empty text. An accepted document equals the draft except for `status`, which becomes `'Order Placed'` when unset. A rejected draft gives the validation error. |
| OrderSchema.ValidateIdempotent | models/Order.js:20 | The default is applied once: a validated document validates again to itself. |
| Effects.Send | lib/emailService.js:76-83 | The shared send step never throws. At most one mail reaches the transport, and only when the transporter was built and the mail rendered. Success holds exactly when the transport accepts that mail. The `messageId` is passed through on success and the transport's error on failure. A factory or rendering error comes back as `{success:false, error}`. |
| EmailService.ItemLines | lib/emailService.js:23-25 | There is one line per item, in input order, with the product name, the quantity and the line total `offerPrice * quantity`. The total is NaN (`None`) when the quantity is missing. The list fails exactly when some item has no product. |
| EmailService.RenderConfirmation | lib/emailService.js:20-74 | The confirmation renders exactly when every item has a product and address and amount are present. Otherwise the error is that of the first failing read: a product's `name`, then `address.email`, then `amount.toFixed`. The mail goes to `address.email` with subject `"Order Confirmation - Order #" + orderId`. Its body carries the customer's `fullName`, the order id, the amount and the shipping address. It also carries the item lines, in order, each with the product name, the quantity and the line total `offerPrice * quantity` (NaN when the quantity is missing). |
| EmailService.RenderStatus | lib/emailService.js:91-119 | The status mail renders exactly when the address is present. It goes to `address.email` with subject `"Order Update - Order #" + orderId`. Its body carries the customer's `fullName`, the order id and `newStatus`. |
| EmailService.SendConfirmation | lib/emailService.js:16-84 | The transport is reached at most once, exactly when the confirmation renders. The mail it gets is the rendered confirmation: the customer's email, the confirmation subject, the item lines and the amount. The result is `{success:true, messageId}` when the transport accepts. Otherwise it is `{success:false, error}`, with the transport's error or the rendering TypeError. |
| EmailService.SendStatus | lib/emailService.js:87-129 | The transport is reached at most once, exactly when the order has an address. The mail it gets is the rendered status mail: that email, the status subject and `newStatus`. Success and `messageId` or `error` mirror the transport. A missing address gives the TypeError message. |
| EmailService.AsWrittenNeverReachesTransport | lib/emailService.js:5-6 | As written, both senders return `{success:false}` with the missing-factory error and never reach the transport, whatever the input. |
| EmailService.AsWrittenLosesDeliverableMail | lib/emailService.js:5-18 | For a complete order and a transport that accepts everything, the corrected sender delivers and the sender as written does not. |
| EmailConfig.Blocks | config/email.js:36-41 | The items section has one block per item, in input order, showing that item's product and quantity. |
| EmailConfig.AdminTemplate | config/email.js:18-51 | The subject is `"New Order Received - Order #" + orderId`. The body carries the order id, the user id, the amount, the date and the address. It also carries the items section: one block per item, in order, showing that item's product and quantity. The template throws (`toFixed`) exactly when the amount is missing. |
| EmailConfig.CustomerTemplate | config/email.js:54-96 | The subject is `"Order Confirmation - Order #" + orderId`. The body carries the order id, the amount, the date and the address, and one block per item in order, showing that item's product and quantity. The template throws exactly when the amount is missing. The customer email argument is ignored. |
| EmailConfig.SendAdminNotification | config/email.js:99-118 | The one mail it can attempt is the admin template's subject and body, addressed to the configured admin address. It is attempted exactly when the template renders. It never throws: the result is `{success:true, messageId}` or `{success:false, error}`. |
| EmailConfig.SendCustomerConfirmation | config/email.js:121-140 | The one mail it can attempt is the customer template's subject and body, addressed to the `customerEmail` argument. It never throws, and it wraps the result the same way. |
| EmailConfig.AsWrittenNeverReachesTransport | config/email.js:5-6 | As written, both senders return the missing-factory failure and never reach the transport. |
| Store.Create | app/api/order/create/route.js:50 | A draft that fails validation is rejected with no write. Otherwise exactly one write of the validated document is attempted under the first minted `_id`. The created order is returned exactly when that write completes. |
| Store.InsertMany | config/inngest.js:85 | One invalid draft rejects the whole batch with no write. Otherwise the batch is written once, and the insert fails exactly when that write fails, with the write's error. On success the created orders have the drafts' count and order, with the i-th minted `_id` and the i-th validated draft. |
| OrderIntake.SumFromIsLineSum | app/api/order/create/route.js:35-37 | The `reduce` (a left fold from 0) equals the sum of `offerPrice * quantity` over the populated items. |
| OrderIntake.SubtotalNonNegative | app/api/order/create/route.js:35-37 | With non-negative prices and quantities the subtotal is non-negative. |
| OrderIntake.Surcharge | app/api/order/create/route.js:39 | The surcharge is `floor(subtotal * 0.02)`: the largest `c` with `100c <= 2 * subtotal`. It equals the subtotal divided by 50, rounded down, for every integer subtotal. |
| OrderIntake.FinalAmount | app/api/order/create/route.js:39 | `amount >= subtotal` holds exactly when `subtotal >= 0`. The excess over the subtotal is the fiftieth of the subtotal, rounded down. |
| OrderIntake.WidgetExample | app/api/order/create/route.js:35-39 | One product priced 100, quantity 2: subtotal 200, surcharge 4, amount 204. |
| OrderIntake.Resolve | app/api/order/create/route.js:22-28 | A found product gives its snapshot. A `null` lookup throws reading `_id` of `null`. A failed lookup passes its error on. |
| OrderIntake.Lookups | app/api/order/create/route.js:20-22 | One catalog lookup per requested line, in request order. |
| OrderIntake.Populate | app/api/order/create/route.js:20-32 | Population succeeds exactly when every line's product resolves. The populated items then have the request's length and order, with each catalog snapshot and the requested quantity. Otherwise the error is that of the first line that fails. |
| OrderIntake.CartFollowsWrite | app/api/order/create/route.js:50-56 | In any intake trace the cart reset comes right after a successful write and at no other time. A successful write is always followed by the reset, and every write is the write of the intended document. |
| OrderIntake.CreateAndClear | app/api/order/create/route.js:50-62 | Nothing is written exactly when the draft fails validation, and then the reply is the validation error. Otherwise one write of the defaulted draft is attempted, and its outcome is the store's answer. A failed write is the reply's error. A completed write is always followed by the reset of the order user's cart, whose outcome is again the store's answer. A failed reset is the reply's error. Success holds exactly when the reset completes, and the reply's `orderId` is the created order's `_id`. |
| OrderIntake.Checkout | app/api/order/create/route.js:17-62 | A failed connection is the reply's error, after the connect alone. An unresolvable product refuses the request with the first failing lookup's error, after the lookups and with no write or cart effect. Otherwise the trace has the intake shape around the one intended document. Success holds exactly when the write completed and the caller's cart was reset. When the connection, lookups, validation, write and reset all succeed, the reply is `Placed` with the first minted `_id`. After the lookups, the reply and the remaining effects are exactly those of `CreateAndClear` on the intended draft. So a draft that validates is always written, and a write or reset error becomes the reply. |
| OrderIntake.PlaceOrder | app/api/order/create/route.js:8-68 | A missing address or an empty item list gives `'Invalid data'` with an empty trace. A missing item list gives the TypeError from reading `length`, and a body parse error gives its message. Otherwise the properties of `Checkout` hold. In particular, a checked request whose collaborators all succeed is placed under the written order's `_id`. A request that passes the input check is exactly the checkout of its lines. |
| OrderIntake.CartClearedOnlyAfterCreate | app/api/order/create/route.js:50-62 | For every request, the cart is reset only right after a successful create, and every successful create is followed by the reset. On success the reply's `orderId` is the written `_id`. |
| OrderIntake.ClearFailureAfterPersist | app/api/order/create/route.js:50-67 | When the cart reset fails, the reply is a failure although the order was already written. |
| OrderIntake.IntendedPriced | app/api/order/create/route.js:20-48 | The document of a request whose products all resolve snapshots every request line in order, with the catalog product and the requested quantity. Its amount is `subtotal + subtotal / 50`, with the subtotal as the sum of the line totals. Its status is `'Order Placed'`, and its user, address and date are the request's. |
| OrderIntake.WrittenOrderPriced | app/api/order/create/route.js:20-50 | Any order write happens only for a request whose products all resolve, and it writes exactly that request's priced document. |
| BatchProcessor.ToDraft | config/inngest.js:75-81 | Each draft copies `userId`, `items`, `amount`, `address` and `date` from `event.data` and leaves `status` unset. |
| BatchProcessor.Drafts | config/inngest.js:74-82 | There is one draft per event, in event order. |
| BatchProcessor.Notify | config/inngest.js:91-108 | The loop's trace holds only mail deliveries. The log line before each send reads `address.email` outside the per-order `try`, so the loop completes exactly when every event has an address. Otherwise it throws the TypeError from reading `email`, at the first event without one. The mails attempted are exactly the buildable confirmations up to that point, in index order: one for each order whose mail renders, none for the others. |
| BatchProcessor.AttemptsIgnoreOutcomes | config/inngest.js:97-107 | The mails attempted, and whether the loop completes, are the same whatever the transport answers. A failed send for one order never stops or changes the sends for later orders. |
| BatchProcessor.OneAttemptPerOrder | config/inngest.js:91-103 | When every event can be mailed, the loop attempts exactly one mail per order, in index order. The i-th mail is built from `events[i].data`'s address, items and amount with `createdOrders[i]._id`, and goes to that address's email. |
| BatchProcessor.InsertedAreMailable | config/inngest.js:84-95 | A batch the bulk insert accepted is mailable event by event. Every event has an address, an amount and a product for each item, because the schema requires them. |
| BatchProcessor.HandleBatch | config/inngest.js:72-112 | A failed connection ends the handler before the insert, and its error is the exception that escapes. A rejected insert is the escaping exception, after its own effects. Otherwise the handler succeeds and returns `processed = events.length`. The loop's possible throw cannot happen after a successful insert, because the schema required every address. When the handler fails no mail is attempted. On success the trace is the write followed by the mail loop over the created orders. |
| BatchProcessor.BatchMailsEveryOrder | config/inngest.js:84-108 | After a successful insert every created order gets exactly one confirmation attempt, in index order, with its event's data and its own `_id`. The attempts are the same for any transport behaviour. |
| StatusEmail.ReplyOf | app/api/order/send-status-email/route.js:31-43 | The reply's `success` equals the send's success. The `messageId` is passed through on success and the `error` on failure. |
| StatusEmail.SendStatusEmail | app/api/order/send-status-email/route.js:8-49 | An empty `orderId` or `newStatus` gives the "required" failure with no lookup or send. A connection or lookup exception gives `{success:false, message}` with that exception's message. An unknown order gives `'Order not found'` and never reaches the transport. A found order always reaches the transport through the status sender, and the reply reports that send. The mail goes to the stored address's email, with the order's `_id` in the subject and the new status. An order stored without an address reads as an empty nested path, so its mail has no recipient and the transport decides. The reply's success equals the transport's, with `messageId`/`error` passed through. |

## Left out

- Transporter construction details (host, port, credentials) and environment variables are not modelled. The transport is a function from a mail to a message id or an error. The admin address is a parameter. The `from` address is not modelled.
- HTML markup, `toFixed(2)`, `toLocaleString`, `toLocaleDateString` and `new Date()` are not modelled: they are float formatting, locale formatting and wall-clock time. Mail bodies keep only the data they show.
- Floating-point and fractional pricing are not modelled. Prices, quantities and amounts are whole numbers of the source's price unit, so neither fractional prices such as 9.99 nor binary rounding of `amount * 0.02` are represented.
- `Date.now()` and Clerk's `getAuth` are parameters (`now`, `userId`). The status endpoint reads `userId` but never uses it, so it is not modelled there.
- Mongoose casting is not modelled. The route stores a product object where the schema declares a String. Whether Mongoose casts it or rejects it is unknown without the Product model, which is not part of this model. Any rejection is covered by letting the write fail.
- OrderSchema.Validate: the real validation message lists every failing path. The model uses one fixed message. A non-numeric `pincode`, `quantity` or `amount` (a cast error) is not modelled. Request quantities are integers.
- OrderIntake.Populate: `Promise.all` issues every lookup before awaiting any. The trace shows all of them. If several lookups fail, the real error is whichever rejects first in time. The model reports the first failing line in request order.
- The user-sync handlers of config/inngest.js (`syncUserCreation`, `syncUserUpdation`, `syncUserDeletion`) are plain database plumbing outside the order pipeline.
- Batch size and timeout (`maxSize: 5`, `timeout: '5s'`) are options passed to the event library, which does the batching. The batch is an input list.
- Inngest's retry of a failed handler and any concurrency between requests are not modelled.
- EmailService.ItemLines: event items are assumed to carry catalog snapshots `{_id, name, offerPrice}`, as the order-placement route stores them. The schema types `items.product` as a String. An event whose product is a plain id string is not representable: the source would show `undefined` for its name and a NaN total, without throwing.
- `event.data` itself missing, `items` not being an array, and the batch loop reading past `events` are not modelled. The bulk insert always returns one order per draft.

## Findings

| source | as written | input that shows it | evidently intended | confidence | as-written member | corrected member |
|---|---|---|---|---|---|---|
| lib/emailService.js:5-6 | `createTransporter` calls `nodemailer.createTransporter`, a name the mail library does not export. Both senders therefore throw before rendering, catch the error and return `{success:false}`. No confirmation or status mail is ever handed to the transport. | Any order, for example one line of product `p1` (price 100) × 2 with a complete address, and a transport that accepts every mail. The sender returns `success:false` with "nodemailer.createTransporter is not a function". | Build the transporter with the library's `createTransport`, so a renderable mail reaches the transport. | medium: depends on the mail library's exported API; not executed | EmailService.AsWrittenNeverReachesTransport (with EmailService.SendConfirmationVia under `FactoryAsWritten`); witness EmailService.AsWrittenLosesDeliverableMail | EmailService.SendConfirmation, EmailService.SendStatus |
| config/email.js:5-6 | The same call to `nodemailer.createTransporter`. The admin and customer senders always return the missing-factory failure. | Any order data with an amount, and any admin or customer address. | As above. | medium: depends on the mail library's exported API; not executed | EmailConfig.AsWrittenNeverReachesTransport | EmailConfig.SendAdminNotification, EmailConfig.SendCustomerConfirmation |

The batch processor and the status endpoint use the corrected senders.

=== FILE: batch_processor.dfy ===
/** The `createUserOrder` handler for batches of `order/created` events:
    map the events to drafts, insert them in bulk, then attempt one
    confirmation mail per created order, whatever happens to the others. */
module BatchProcessor {
  import opened Common
  import opened OrderSchema
  import opened Effects
  import opened Store
  import EmailService

  /** `event.data` of an `order/created` event. */
  datatype EventData = EventData(
    userId: Option<string>,
    items: seq<Item>,
    amount: Option<int>,
    address: Option<Address>,
    date: Option<int>)

  datatype Event = Event(data: EventData)

  /** `{success: true, processed}`: the handler has no other successful reply. */
  datatype BatchReply = Processed(processed: nat)

  /** The draft of one event: its five fields copied; `status` is left to
      the schema default. */
  function ToDraft(e: Event): (d: OrderDraft)
    ensures d.userId == e.data.userId && d.items == e.data.items && d.amount == e.data.amount
    ensures d.address == e.data.address && d.date == e.data.date && d.status.None?
  {
    OrderDraft(e.data.userId, e.data.items, e.data.amount, e.data.address, e.data.date, None)
  }

  /** The drafts of a batch, one per event, in event order. */
  function Drafts(events: seq<Event>): (ds: seq<OrderDraft>)
    ensures |ds| == |events|
    ensures forall i :: 0 <= i < |events| ==> ds[i] == ToDraft(events[i])
  {
    seq(|events|, i requires 0 <= i < |events| => ToDraft(events[i]))
  }

  /** What the i-th send is given: the event's address, items and amount with
      the created order's `_id`. */
  function MailData(e: Event, order: Order): EmailService.ConfirmationData {
    EmailService.ConfirmationData(e.data.address, e.data.items, e.data.amount, order.id)
  }

  /** The mail the i-th send hands to the transport when it can be built. */
  function Confirmation(e: Event, order: Order): Result<Mail> {
    EmailService.RenderConfirmation(MailData(e, order))
  }

  /** Every event of the batch carries an address. */
  predicate AllAddressed(events: seq<Event>) {
    forall i :: 0 <= i < |events| ==> events[i].data.address.Some?
  }

  /** Reference list of the confirmations the loop can build, in index order,
      up to the first event without an address: one per order whose mail
      renders, none for the others. */
  function Buildable(events: seq<Event>, orders: seq<Order>): (mails: seq<Mail>)
    requires |events| == |orders|
    ensures |mails| <= |orders|
    decreases |orders|
  {
    if |orders| == 0 || events[0].data.address.None? then []
    else
      var rest := Buildable(events[1..], orders[1..]);
      match Confirmation(events[0], orders[0])
      case Ok(m) => [m] + rest
      case Err(_) => rest
  }

  /** The email loop: for each created order, in index order, a log line that
      reads `address.email`, then one call of the confirmation sender, whose
      result is only logged. The log line sits outside the per-order `try`, so
      an event without an address throws out of the loop. */
  function Notify(events: seq<Event>, orders: seq<Order>, deliver: Mail -> Result<string>): (run: Run<Outcome>)
    requires |events| == |orders|
    ensures forall k :: 0 <= k < |run.trace| ==> run.trace[k].Deliver?
    // the loop completes exactly when every event has an address
    ensures run.result.Pass? <==> AllAddressed(events)
    ensures run.result.Fail? ==> run.result.message == CannotRead("email", "undefined")
    // exactly the buildable confirmations reach the transport, in index order
    ensures Attempts(run.trace) == Buildable(events, orders)
    decreases |orders|
  {
    if |orders| == 0 then Run(Pass, [])
    else if events[0].data.address.None? then Run(Fail(CannotRead("email", "undefined")), [])
    else
      var sent := EmailService.SendConfirmation(MailData(events[0], orders[0]), deliver);
      var rest := Notify(events[1..], orders[1..], deliver);
      AttemptsAppend(sent.trace, rest.trace);
      assert sent.trace != [] ==> Attempts(sent.trace) == [sent.trace[0].mail];
      assert forall i :: 1 <= i < |events| ==> events[i] == events[1..][i - 1];
      Run(rest.result, sent.trace + rest.trace)
  }

  /** The mails the loop attempts do not depend on what the transport answers:
      a failed send never stops or alters the sends that follow it. */
  lemma AttemptsIgnoreOutcomes(events: seq<Event>, orders: seq<Order>, d1: Mail -> Result<string>, d2: Mail -> Result<string>)
    requires |events| == |orders|
    ensures Attempts(Notify(events, orders, d1).trace) == Attempts(Notify(events, orders, d2).trace)
    ensures Notify(events, orders, d1).result == Notify(events, orders, d2).result
  {
  }

  /** The mails a send can build: every item names a product, and the event
      carries an address and an amount. */
  predicate Mailable(e: Event) {
    && (forall j :: 0 <= j < |e.data.items| ==> e.data.items[j].product.Some?)
    && e.data.address.Some?
    && e.data.amount.Some?
  }

  /** When every event is mailable, the loop attempts exactly one mail per
      order, in index order: the i-th to the i-th event's email with the i-th
      order's `_id` in the subject. */
  lemma {:induction false} OneAttemptPerOrder(events: seq<Event>, orders: seq<Order>, deliver: Mail -> Result<string>)
    requires |events| == |orders|
    requires forall i :: 0 <= i < |events| ==> Mailable(events[i])
    ensures
      var mails := Attempts(Notify(events, orders, deliver).trace);
      && |mails| == |orders|
      && forall i :: 0 <= i < |orders| ==>
           && Confirmation(events[i], orders[i]) == Ok(mails[i])
           && mails[i].to == events[i].data.address.value.email
           && mails[i].subject == EmailService.ConfirmationSubject + orders[i].id
    decreases |orders|
  {
    if |orders| > 0 {
      var sent := EmailService.SendConfirmation(MailData(events[0], orders[0]), deliver);
      var rest := Notify(events[1..], orders[1..], deliver).trace;
      assert Mailable(events[0]);
      assert forall i :: 0 <= i < |events[1..]| ==> events[1..][i] == events[i + 1];
      OneAttemptPerOrder(events[1..], orders[1..], deliver);
      AttemptsAppend(sent.trace, rest);
      assert Attempts(sent.trace) == [sent.trace[0].mail];
      var mails := Attempts(Notify(events, orders, deliver).trace);
      assert mails == [sent.trace[0].mail] + Attempts(rest);
      forall i | 0 <= i < |orders|
        ensures Confirmation(events[i], orders[i]) == Ok(mails[i])
      {
        if i > 0 {
          assert mails[i] == Attempts(rest)[i - 1];
          assert events[i] == events[1..][i - 1] && orders[i] == orders[1..][i - 1];
        }
      }
    }
  }

  /** A batch the bulk insert accepted is mailable event by event: the schema
      requires every order's address, amount and item products. */
  lemma InsertedAreMailable(events: seq<Event>, db: Db)
    requires InsertMany(db, Drafts(events)).result.Ok?
    ensures forall i :: 0 <= i < |events| ==> Mailable(events[i])
  {
  }

  /** The `createUserOrder` handler. `Err` is an exception that escapes it
      (the batch then fails as a whole). */
  function HandleBatch(events: seq<Event>, db: Db, deliver: Mail -> Result<string>): (run: Run<Result<BatchReply>>)
    // the count of a successful run is the batch size, whatever the mails did
    ensures run.result.Ok? ==> run.result.value == Processed(|events|)
    // a failed connection ends the handler before the insert
    ensures db.connect.Fail? ==> run == Run(Err(db.connect.message), [ConnectDb])
    // a rejected insert is the exception that escapes, after its own effects
    ensures db.connect.Pass? && InsertMany(db, Drafts(events)).result.Err? ==>
      run == Run(Err(InsertMany(db, Drafts(events)).result.message), [ConnectDb] + InsertMany(db, Drafts(events)).trace)
    // without a successful insert no mail is attempted
    ensures run.result.Err? ==> Attempts(run.trace) == []
    // after a successful insert the loop cannot throw: the schema required
    // every address the log line reads
    ensures run.result.Ok? <==> db.connect.Pass? && InsertMany(db, Drafts(events)).result.Ok?
    ensures run.result.Ok? ==>
      var orders := InsertMany(db, Drafts(events)).result.value;
      && |orders| == |events|
      && run.trace == [ConnectDb, WriteOrders(orders, true)] + Notify(events, orders, deliver).trace
  {
    match db.connect
    case Fail(e) => Run(Err(e), [ConnectDb])
    case Pass =>
      var inserted := InsertMany(db, Drafts(events));
      match inserted.result
      case Err(e) =>
        assert Attempts(inserted.trace) == [];
        AttemptsAppend([ConnectDb], inserted.trace);
        Run(Err(e), [ConnectDb] + inserted.trace)
      case Ok(orders) =>
        InsertedAreMailable(events, db);
        var loop := Notify(events, orders, deliver);
        var reply := match loop.result
          case Pass => Ok(Processed(|events|))
          case Fail(e) => Err(e);
        Run(reply, [ConnectDb] + inserted.trace + loop.trace)
  }

  /** After a successful insert each created order gets exactly one
      confirmation attempt, in index order, built from its event's address,
      items and amount and its own `_id`; and the attempts are the same
      whatever the transport answers. */
  lemma BatchMailsEveryOrder(events: seq<Event>, db: Db, deliver: Mail -> Result<string>, other: Mail -> Result<string>)
    requires HandleBatch(events, db, deliver).result.Ok?
    ensures
      var orders := InsertMany(db, Drafts(events)).result.value;
      var mails := Attempts(HandleBatch(events, db, deliver).trace);
      && |mails| == |events|
      && (forall i :: 0 <= i < |events| ==>
            && Confirmation(events[i], orders[i]) == Ok(mails[i])
            && mails[i].to == events[i].data.address.value.email
            && mails[i].subject == EmailService.ConfirmationSubject + orders[i].id)
      && mails == Attempts(HandleBatch(events, db, other).trace)
  {
    var orders := InsertMany(db, Drafts(events)).result.value;
    InsertedAreMailable(events, db);
    var head: seq<Effect> := [ConnectDb, WriteOrders(orders, true)];
    assert Attempts(head) == [];
    AttemptsAppend(head, Notify(events, orders, deliver).trace);
    AttemptsAppend(head, Notify(events, orders, other).trace);
    OneAttemptPerOrder(events, orders, deliver);
    AttemptsIgnoreOutcomes(events, orders, deliver, other);
  }
}

=== FILE: common.dfy ===
/** Small value types shared by every module of the model: optional values,
    results that carry an error message, and pass/fail outcomes. A JavaScript
    `undefined`/`null` field becomes `None`, and a thrown exception becomes an
    `Err`/`Fail` carrying the exception's `message`. */
module Common {

  datatype Option<+T> = None | Some(value: T) {

    /** The value, or `default` when absent (Mongoose's schema defaults). */
    function GetOr(default: T): T {
      if Some? then value else default
    }
  }

  /** A computation that either yields a value or throws with a message. */
  datatype Result<+T> = Ok(value: T) | Err(message: string)

  /** A computation with no value that either completes or throws. */
  datatype Outcome = Pass | Fail(message: string)

  /** The message of the TypeError a JavaScript engine raises when a property
      is read from `undefined` or `null`. */
  function CannotRead(prop: string, owner: string): string {
    "Cannot read properties of " + owner + " (reading '" + prop + "')"
  }
}

=== FILE: effects.dfy ===
/** What the pipeline does to the outside world, and the mail it hands to the
    transport. Every handler of the model returns a `Run`: its response and
    the ordered trace of collaborator calls it made, so that "whether" and "in
    which order" an effect happens are plain statements about the trace. */
module Effects {
  import opened Common
  import opened OrderSchema

  /** One line of the customer confirmation's item list: product name,
      quantity and line total. A missing quantity renders as `NaN`, modelled
      as `None`. */
  datatype ItemLine = ItemLine(name: string, quantity: Option<int>, total: Option<int>)

  /** One block of the items section of the admin/customer templates, showing
      the product and the quantity. */
  datatype ItemBlock = ItemBlock(product: Option<Product>, quantity: Option<int>)

  /** The information a mail body carries (the HTML around it is not modelled). */
  datatype Body =
    | ConfirmationBody(customer: string, orderId: string, amount: int, lines: seq<ItemLine>, shipTo: Address)
    | StatusBody(customer: string, orderId: string, newStatus: string)
    | AdminBody(orderId: string, userId: Option<string>, amount: int, date: Option<int>, blocks: seq<ItemBlock>, address: Option<Address>)
    | CustomerBody(orderId: string, amount: int, date: Option<int>, blocks: seq<ItemBlock>, address: Option<Address>)

  datatype Mail = Mail(to: string, subject: string, body: Body)

  /** What a sender returns: `{success: true, messageId}` or `{success: false, error}`. */
  datatype SendResult = Delivered(messageId: string) | NotDelivered(error: string) {
    predicate Success() {
      Delivered?
    }
  }

  /** A call into a collaborator; `ok` records whether it completed. */
  datatype Effect =
    | ConnectDb
    | FindProduct(ref: string)
    | WriteOrders(docs: seq<Order>, ok: bool)
    | ClearCart(userId: string, ok: bool)
    | FindOrder(orderId: string)
    | Deliver(mail: Mail, ok: bool)

  datatype Run<+R> = Run(result: R, trace: seq<Effect>)

  /** The mails handed to the transport, in trace order. */
  function Attempts(trace: seq<Effect>): (mails: seq<Mail>)
    ensures |mails| <= |trace|
  {
    if |trace| == 0 then []
    else if trace[0].Deliver? then [trace[0].mail] + Attempts(trace[1..])
    else Attempts(trace[1..])
  }

  /** The attempts of a concatenated trace are the attempts of its parts. */
  lemma {:induction false} AttemptsAppend(a: seq<Effect>, b: seq<Effect>)
    ensures Attempts(a + b) == Attempts(a) + Attempts(b)
    decreases |a|
  {
    if |a| == 0 {
      assert a + b == b;
    } else {
      assert (a + b)[1..] == a[1..] + b;
      AttemptsAppend(a[1..], b);
    }
  }

  /** The transport factory the mail library exports. */
  const TransportFactory: string := "createTransport"

  /** The factory name both mail modules call when they build their
      transporter. */
  const FactoryAsWritten: string := "createTransporter"

  /** Looking a transport factory up on the mail library: a name it does not
      export is `undefined`, and calling it throws a TypeError. The export
      table (only `createTransport`) and the message wording are assumptions
      about the library, not facts proved here. */
  function MakeTransporter(factory: string): (r: Outcome)
    ensures r.Pass? <==> factory == TransportFactory
    ensures r.Fail? ==> r.message == "nodemailer." + factory + " is not a function"
  {
    if factory == TransportFactory then Pass
    else Fail("nodemailer." + factory + " is not a function")
  }

  /** The body shared by all four senders: build the transporter with
      `factory`, then hand the rendered mail to `deliver`. Any exception (a
      missing factory, a rendering TypeError, a transport failure) becomes
      `NotDelivered`; none escapes. */
  function Send(factory: string, rendered: Result<Mail>, deliver: Mail -> Result<string>): (run: Run<SendResult>)
    ensures MakeTransporter(factory).Fail? ==> run == Run(NotDelivered(MakeTransporter(factory).message), [])
    ensures run.trace == [] || (|run.trace| == 1 && run.trace[0].Deliver?)
    ensures run.trace != [] <==> factory == TransportFactory && rendered.Ok?
    ensures run.trace != [] ==> run.trace[0] == Deliver(rendered.value, run.result.Success())
    ensures run.result.Success() <==> factory == TransportFactory && rendered.Ok? && deliver(rendered.value).Ok?
    ensures run.result.Delivered? ==> run.result.messageId == deliver(rendered.value).value
    ensures factory == TransportFactory && rendered.Err? ==> run.result == NotDelivered(rendered.message)
    ensures run.trace != [] && run.result.NotDelivered? ==> run.result.error == deliver(rendered.value).message
  {
    match MakeTransporter(factory)
    case Fail(e) => Run(NotDelivered(e), [])
    case Pass =>
      match rendered
      case Err(e) => Run(NotDelivered(e), [])
      case Ok(mail) =>
        match deliver(mail)
        case Ok(messageId) => Run(Delivered(messageId), [Deliver(mail, true)])
        case Err(e) => Run(NotDelivered(e), [Deliver(mail, false)])
  }
}

=== FILE: email_config.dfy ===
/** The admin and customer notifications of config/email.js: two templates
    (subject and body) and the two senders that address and dispatch them. */
module EmailConfig {
  import opened Common
  import opened OrderSchema
  import opened Effects

  const AdminSubject: string := "New Order Received - Order #"
  const CustomerSubject: string := "Order Confirmation - Order #"

  /** `{orderId, userId, items, amount, address, date}` given to both templates. */
  datatype NotificationData = NotificationData(
    orderId: string,
    userId: Option<string>,
    items: seq<Item>,
    amount: Option<int>,
    address: Option<Address>,
    date: Option<int>)

  /** What a template returns: `{subject, html}`. */
  datatype Content = Content(subject: string, body: Body)

  /** The items section: one block per item, in order, showing its product
      and quantity. */
  function Blocks(items: seq<Item>): (bs: seq<ItemBlock>)
    ensures |bs| == |items|
    ensures forall i :: 0 <= i < |items| ==> bs[i].product == items[i].product && bs[i].quantity == items[i].quantity
    decreases |items|
  {
    if |items| == 0 then []
    else [ItemBlock(items[0].product, items[0].quantity)] + Blocks(items[1..])
  }

  /** `adminEmailTemplate`: throws only when `amount` is missing (`toFixed`). */
  function AdminTemplate(data: NotificationData): (r: Result<Content>)
    ensures r.Ok? <==> data.amount.Some?
    ensures r.Err? ==> r.message == CannotRead("toFixed", "undefined")
    ensures r.Ok? ==> r.value.subject == AdminSubject + data.orderId
    ensures r.Ok? ==>
      && r.value.body.AdminBody?
      && r.value.body.orderId == data.orderId
      && r.value.body.userId == data.userId
      && r.value.body.amount == data.amount.value
      && r.value.body.date == data.date
      && r.value.body.address == data.address
      && r.value.body.blocks == Blocks(data.items)
    ensures r.Ok? ==> |r.value.body.blocks| == |data.items| && forall i :: 0 <= i < |data.items| ==>
      r.value.body.blocks[i] == ItemBlock(data.items[i].product, data.items[i].quantity)
  {
    if data.amount.None? then Err(CannotRead("toFixed", "undefined"))
    else Ok(Content(AdminSubject + data.orderId,
                    AdminBody(data.orderId, data.userId, data.amount.value, data.date, Blocks(data.items), data.address)))
  }

  /** `customerEmailTemplate`: the customer address is accepted but unused. */
  function CustomerTemplate(data: NotificationData, customerEmail: string): (r: Result<Content>)
    ensures r.Ok? <==> data.amount.Some?
    ensures r.Err? ==> r.message == CannotRead("toFixed", "undefined")
    ensures r.Ok? ==> r.value.subject == CustomerSubject + data.orderId
    ensures r.Ok? ==>
      && r.value.body.CustomerBody?
      && r.value.body.orderId == data.orderId
      && r.value.body.amount == data.amount.value
      && r.value.body.date == data.date
      && r.value.body.address == data.address
      && r.value.body.blocks == Blocks(data.items)
    ensures r.Ok? ==> |r.value.body.blocks| == |data.items| && forall i :: 0 <= i < |data.items| ==>
      r.value.body.blocks[i] == ItemBlock(data.items[i].product, data.items[i].quantity)
  {
    if data.amount.None? then Err(CannotRead("toFixed", "undefined"))
    else Ok(Content(CustomerSubject + data.orderId,
                    CustomerBody(data.orderId, data.amount.value, data.date, Blocks(data.items), data.address)))
  }

  /** Addresses a template's content to `to`, keeping a thrown error as is. */
  function Addressed(content: Result<Content>, to: string): (r: Result<Mail>)
    ensures r.Ok? <==> content.Ok?
    ensures r.Ok? ==> r.value == Mail(to, content.value.subject, content.value.body)
    ensures r.Err? ==> r.message == content.message
  {
    match content
    case Err(e) => Err(e)
    case Ok(c) => Ok(Mail(to, c.subject, c.body))
  }

  /** `sendAdminNotification` with the transporter built by `factory`;
      `adminEmail` is the configured admin address. */
  function SendAdminNotificationVia(factory: string, data: NotificationData, adminEmail: string, deliver: Mail -> Result<string>): Run<SendResult> {
    Send(factory, Addressed(AdminTemplate(data), adminEmail), deliver)
  }

  /** `sendCustomerConfirmation` with the transporter built by `factory`. */
  function SendCustomerConfirmationVia(factory: string, data: NotificationData, customerEmail: string, deliver: Mail -> Result<string>): Run<SendResult> {
    Send(factory, Addressed(CustomerTemplate(data, customerEmail), customerEmail), deliver)
  }

  /** The admin sender with a transporter that can be built: the one mail it
      can attempt goes to the admin address with the admin subject, and every
      failure comes back as a value. */
  function SendAdminNotification(data: NotificationData, adminEmail: string, deliver: Mail -> Result<string>): (run: Run<SendResult>)
    ensures run.trace == [] || (|run.trace| == 1 && run.trace[0].Deliver?)
    ensures run.trace != [] <==> data.amount.Some?
    // the mail handed to the transport is the admin template's content
    ensures run.trace != [] ==>
      run.trace[0].mail == Mail(adminEmail, AdminTemplate(data).value.subject, AdminTemplate(data).value.body)
    ensures run.trace != [] ==>
      && run.trace[0].mail.to == adminEmail
      && run.trace[0].mail.subject == AdminSubject + data.orderId
      && run.trace[0].ok == run.result.Success()
    ensures run.result.Success() <==> run.trace != [] && deliver(run.trace[0].mail).Ok?
    ensures run.result.Delivered? ==> run.result.messageId == deliver(run.trace[0].mail).value
    ensures run.trace != [] && run.result.NotDelivered? ==> run.result.error == deliver(run.trace[0].mail).message
    ensures run.trace == [] ==> run.result == NotDelivered(CannotRead("toFixed", "undefined"))
  {
    SendAdminNotificationVia(TransportFactory, data, adminEmail, deliver)
  }

  /** The customer sender with a transporter that can be built: the mail goes
      to the `customerEmail` argument. */
  function SendCustomerConfirmation(data: NotificationData, customerEmail: string, deliver: Mail -> Result<string>): (run: Run<SendResult>)
    ensures run.trace == [] || (|run.trace| == 1 && run.trace[0].Deliver?)
    ensures run.trace != [] <==> data.amount.Some?
    ensures run.trace != [] ==>
      run.trace[0].mail == Mail(customerEmail, CustomerTemplate(data, customerEmail).value.subject, CustomerTemplate(data, customerEmail).value.body)
    ensures run.trace != [] ==>
      && run.trace[0].mail.to == customerEmail
      && run.trace[0].mail.subject == CustomerSubject + data.orderId
      && run.trace[0].ok == run.result.Success()
    ensures run.result.Success() <==> run.trace != [] && deliver(run.trace[0].mail).Ok?
    ensures run.result.Delivered? ==> run.result.messageId == deliver(run.trace[0].mail).value
    ensures run.trace != [] && run.result.NotDelivered? ==> run.result.error == deliver(run.trace[0].mail).message
    ensures run.trace == [] ==> run.result == NotDelivered(CannotRead("toFixed", "undefined"))
  {
    SendCustomerConfirmationVia(TransportFactory, data, customerEmail, deliver)
  }

  /** As written, both senders call a factory the mail library does not
      export, so neither ever reaches the transport. */
  lemma AsWrittenNeverReachesTransport(data: NotificationData, to: string, deliver: Mail -> Result<string>)
    ensures SendAdminNotificationVia(FactoryAsWritten, data, to, deliver)
         == Run(NotDelivered("nodemailer.createTransporter is not a function"), [])
    ensures SendCustomerConfirmationVia(FactoryAsWritten, data, to, deliver)
         == Run(NotDelivered("nodemailer.createTransporter is not a function"), [])
  {
    assert |FactoryAsWritten| != |TransportFactory|;
    assert "nodemailer." + FactoryAsWritten + " is not a function" == "nodemailer.createTransporter is not a function";
  }
}

=== FILE: email_service.dfy ===
/** The customer mails of lib/emailService.js: the order confirmation sent for
    each batched order and the status-update mail. */
module EmailService {
  import opened Common
  import opened OrderSchema
  import opened Effects

  const ConfirmationSubject: string := "Order Confirmation - Order #"
  const StatusSubject: string := "Order Update - Order #"

  /** `{address, items, amount, orderId}` passed to the confirmation sender. */
  datatype ConfirmationData = ConfirmationData(address: Option<Address>, items: seq<Item>, amount: Option<int>, orderId: string)

  /** `{address, orderId}` passed to the status sender. */
  datatype StatusData = StatusData(address: Option<Address>, orderId: string)

  /** The line total a confirmation shows: `None` (NaN) when the quantity is
      missing. */
  function ShownTotal(p: Product, quantity: Option<int>): (t: Option<int>)
    ensures t.Some? <==> quantity.Some?
    ensures t.Some? ==> t.value == p.offerPrice * quantity.value
  {
    if quantity.Some? then Some(LineTotal(p, quantity.value)) else None
  }

  /** The item list of the confirmation: one line per item, in order. Reading
      `name` of a missing product throws. */
  function ItemLines(items: seq<Item>): (r: Result<seq<ItemLine>>)
    ensures r.Ok? <==> forall i :: 0 <= i < |items| ==> items[i].product.Some?
    ensures r.Ok? ==> |r.value| == |items|
    ensures r.Ok? ==> forall i :: 0 <= i < |items| ==>
      && r.value[i].name == items[i].product.value.name
      && r.value[i].quantity == items[i].quantity
      && (items[i].quantity.Some? ==> r.value[i].total == Some(items[i].product.value.offerPrice * items[i].quantity.value))
      && (items[i].quantity.None? ==> r.value[i].total.None?)
    ensures r.Err? ==> r.message == CannotRead("name", "undefined")
    decreases |items|
  {
    if |items| == 0 then Ok([])
    else if items[0].product.None? then Err(CannotRead("name", "undefined"))
    else
      var p := items[0].product.value;
      match ItemLines(items[1..])
      case Err(e) => Err(e)
      case Ok(rest) => Ok([ItemLine(p.name, items[0].quantity, ShownTotal(p, items[0].quantity))] + rest)
  }

  /** The TypeError of the first read that fails while the confirmation is
      built: a missing product's `name`, then `address.email`, then
      `amount.toFixed`. */
  function FirstFailingRead(data: ConfirmationData): string {
    if exists i :: 0 <= i < |data.items| && data.items[i].product.None? then CannotRead("name", "undefined")
    else if data.address.None? then CannotRead("email", "undefined")
    else CannotRead("toFixed", "undefined")
  }

  /** The confirmation mail, or the TypeError its construction throws: the
      item list is built first, then `address.email`, then `amount.toFixed`. */
  function RenderConfirmation(data: ConfirmationData): (r: Result<Mail>)
    ensures r.Ok? <==>
      && (forall i :: 0 <= i < |data.items| ==> data.items[i].product.Some?)
      && data.address.Some? && data.amount.Some?
    ensures r.Ok? ==> r.value.to == data.address.value.email
    ensures r.Ok? ==> r.value.subject == ConfirmationSubject + data.orderId
    ensures r.Ok? ==>
      && r.value.body.ConfirmationBody?
      && r.value.body.orderId == data.orderId
      && r.value.body.amount == data.amount.value
      && r.value.body.shipTo == data.address.value
      && |r.value.body.lines| == |data.items|
    ensures r.Ok? ==> r.value.body.customer == data.address.value.fullName
    ensures r.Ok? ==> r.value.body.lines == ItemLines(data.items).value
    ensures r.Ok? ==> forall i :: 0 <= i < |data.items| ==>
      && r.value.body.lines[i].name == data.items[i].product.value.name
      && r.value.body.lines[i].quantity == data.items[i].quantity
      && r.value.body.lines[i].total == ShownTotal(data.items[i].product.value, data.items[i].quantity)
    ensures r.Err? ==> r.message == FirstFailingRead(data)
  {
    match ItemLines(data.items)
    case Err(e) => Err(e)
    case Ok(lines) =>
      if data.address.None? then Err(CannotRead("email", "undefined"))
      else if data.amount.None? then Err(CannotRead("toFixed", "undefined"))
      else
        var a := data.address.value;
        Ok(Mail(a.email, ConfirmationSubject + data.orderId,
                ConfirmationBody(a.fullName, data.orderId, data.amount.value, lines, a)))
  }

  /** The status-update mail, or the TypeError raised reading `address.email`. */
  function RenderStatus(data: StatusData, newStatus: string): (r: Result<Mail>)
    ensures r.Ok? <==> data.address.Some?
    ensures r.Ok? ==> r.value.to == data.address.value.email
    ensures r.Ok? ==> r.value.subject == StatusSubject + data.orderId
    ensures r.Ok? ==> r.value.body.StatusBody? && r.value.body.newStatus == newStatus && r.value.body.orderId == data.orderId
    ensures r.Ok? ==> r.value.body.customer == data.address.value.fullName
    ensures r.Err? ==> r.message == CannotRead("email", "undefined")
  {
    if data.address.None? then Err(CannotRead("email", "undefined"))
    else
      var a := data.address.value;
      Ok(Mail(a.email, StatusSubject + data.orderId, StatusBody(a.fullName, data.orderId, newStatus)))
  }

  /** `sendOrderConfirmationEmail` with the transporter built by `factory`. */
  function SendConfirmationVia(factory: string, data: ConfirmationData, deliver: Mail -> Result<string>): Run<SendResult> {
    Send(factory, RenderConfirmation(data), deliver)
  }

  /** `sendOrderStatusEmail` with the transporter built by `factory`. */
  function SendStatusVia(factory: string, data: StatusData, newStatus: string, deliver: Mail -> Result<string>): Run<SendResult> {
    Send(factory, RenderStatus(data, newStatus), deliver)
  }

  /** The confirmation sender with a transporter that can be built: at most
      one mail reaches the transport, addressed to the customer, and every
      failure comes back as a value. */
  function SendConfirmation(data: ConfirmationData, deliver: Mail -> Result<string>): (run: Run<SendResult>)
    ensures run.trace == [] || (|run.trace| == 1 && run.trace[0].Deliver?)
    ensures run.trace != [] <==> RenderConfirmation(data).Ok?
    // the mail handed to the transport is the rendered confirmation
    ensures run.trace != [] ==> RenderConfirmation(data) == Ok(run.trace[0].mail)
    ensures run.trace == [] ==> run.result == NotDelivered(RenderConfirmation(data).message)
    ensures run.trace != [] ==>
      && run.trace[0].mail.to == data.address.value.email
      && run.trace[0].mail.subject == ConfirmationSubject + data.orderId
      && run.trace[0].ok == run.result.Success()
    ensures run.result.Success() <==> run.trace != [] && deliver(run.trace[0].mail).Ok?
    ensures run.result.Delivered? ==> run.result.messageId == deliver(run.trace[0].mail).value
    ensures run.trace != [] && run.result.NotDelivered? ==> run.result.error == deliver(run.trace[0].mail).message
  {
    SendConfirmationVia(TransportFactory, data, deliver)
  }

  /** The status sender with a transporter that can be built. */
  function SendStatus(data: StatusData, newStatus: string, deliver: Mail -> Result<string>): (run: Run<SendResult>)
    ensures run.trace == [] || (|run.trace| == 1 && run.trace[0].Deliver?)
    ensures run.trace != [] <==> data.address.Some?
    ensures run.trace != [] ==> RenderStatus(data, newStatus) == Ok(run.trace[0].mail)
    ensures run.trace != [] ==>
      && run.trace[0].mail.to == data.address.value.email
      && run.trace[0].mail.subject == StatusSubject + data.orderId
      && run.trace[0].mail.body.StatusBody?
      && run.trace[0].mail.body.newStatus == newStatus
      && run.trace[0].ok == run.result.Success()
    ensures run.result.Success() <==> run.trace != [] && deliver(run.trace[0].mail).Ok?
    ensures run.result.Delivered? ==> run.result.messageId == deliver(run.trace[0].mail).value
    ensures run.trace != [] && run.result.NotDelivered? ==> run.result.error == deliver(run.trace[0].mail).message
    ensures run.trace == [] ==> run.result == NotDelivered(CannotRead("email", "undefined"))
  {
    SendStatusVia(TransportFactory, data, newStatus, deliver)
  }

  /** As written, both senders call a factory the mail library does not
      export: whatever the input and the transport, they return a failure and
      never reach the transport. */
  lemma AsWrittenNeverReachesTransport(data: ConfirmationData, status: StatusData, newStatus: string, deliver: Mail -> Result<string>)
    ensures SendConfirmationVia(FactoryAsWritten, data, deliver)
         == Run(NotDelivered("nodemailer.createTransporter is not a function"), [])
    ensures SendStatusVia(FactoryAsWritten, status, newStatus, deliver)
         == Run(NotDelivered("nodemailer.createTransporter is not a function"), [])
  {
    assert |FactoryAsWritten| != |TransportFactory|;
    assert "nodemailer." + FactoryAsWritten + " is not a function" == "nodemailer.createTransporter is not a function";
  }

  /** A concrete input that shows the discrepancy: a complete order and a
      transport that accepts every mail. The corrected sender delivers; the
      sender as written does not. */
  lemma AsWrittenLosesDeliverableMail()
    ensures
      var a := Address("Ada", "555", "ada@example.com", Some(560001), "Area 1", "City", "State");
      var data := ConfirmationData(Some(a), [Item(Some(Product("p1", "Widget", 100)), Some(2))], Some(204), "o1");
      var accept := (m: Mail) => Ok("m-1");
      && SendConfirmation(data, accept).result == Delivered("m-1")
      && SendConfirmationVia(FactoryAsWritten, data, accept).result.NotDelivered?
  {
  }
}

=== FILE: order_intake.dfy ===
/** The order-placement endpoint (`POST /api/order/create`): check the
    request, snapshot each catalog product, price the order, create it, then
    clear the caller's cart. */
module OrderIntake {
  import opened Common
  import opened OrderSchema
  import opened Effects
  import opened Store

  const InvalidData: string := "Invalid data"
  const OrderPlaced: string := "Order Placed"

  /** One requested line: a product reference and a quantity. */
  datatype CartLine = CartLine(product: string, quantity: int)

  /** The JSON body `{address, items}`; either field may be missing. */
  datatype OrderRequest = OrderRequest(address: Option<Address>, items: Option<seq<CartLine>>)

  /** A requested line with its catalog snapshot. */
  datatype PricedLine = PricedLine(product: Product, quantity: int)

  /** `{success: true, message: 'Order Placed', orderId}` or `{success: false, message}`. */
  datatype IntakeReply = Placed(orderId: string) | Refused(message: string) {
    predicate Success() {
      Placed?
    }

    function Message(): string {
      if Placed? then OrderPlaced else message
    }
  }

  // ---------------------------------------------------------------- pricing

  /** The `reduce` of the source: a left fold that adds each line total to an
      accumulator, from the first line to the last. */
  function SumFrom(acc: int, lines: seq<PricedLine>): int
    decreases |lines|
  {
    if |lines| == 0 then acc else SumFrom(acc + LineTotal(lines[0].product, lines[0].quantity), lines[1..])
  }

  function Subtotal(lines: seq<PricedLine>): int {
    SumFrom(0, lines)
  }

  /** Reference definition of the subtotal: the sum of the line totals. */
  function LineSum(lines: seq<PricedLine>): int
    decreases |lines|
  {
    if |lines| == 0 then 0 else LineTotal(lines[0].product, lines[0].quantity) + LineSum(lines[1..])
  }

  /** The left fold computes the sum of the line totals. */
  lemma {:induction false} SumFromIsLineSum(acc: int, lines: seq<PricedLine>)
    ensures SumFrom(acc, lines) == acc + LineSum(lines)
    decreases |lines|
  {
    if |lines| > 0 {
      SumFromIsLineSum(acc + LineTotal(lines[0].product, lines[0].quantity), lines[1..]);
    }
  }

  /** With non-negative prices and quantities the subtotal is non-negative. */
  lemma {:induction false} SubtotalNonNegative(lines: seq<PricedLine>)
    requires forall i :: 0 <= i < |lines| ==> lines[i].product.offerPrice >= 0 && lines[i].quantity >= 0
    ensures Subtotal(lines) >= 0
  {
    SumFromIsLineSum(0, lines);
    LineSumNonNegative(lines);
  }

  lemma {:induction false} LineSumNonNegative(lines: seq<PricedLine>)
    requires forall i :: 0 <= i < |lines| ==> lines[i].product.offerPrice >= 0 && lines[i].quantity >= 0
    ensures LineSum(lines) >= 0
    decreases |lines|
  {
    if |lines| > 0 {
      assert lines[0].product.offerPrice >= 0 && lines[0].quantity >= 0;
      LineSumNonNegative(lines[1..]);
    }
  }

  /** `Math.floor(subtotal * 0.02)` in exact arithmetic: the largest `c` with
      `100 * c <= 2 * subtotal`. */
  function Surcharge(subtotal: int): (c: int)
    ensures 100 * c <= 2 * subtotal < 100 * (c + 1)
    ensures c == subtotal / 50
  {
    (2 * subtotal) / 100
  }

  /** `amount + Math.floor(amount * 0.02)`. */
  function FinalAmount(subtotal: int): (amount: int)
    ensures amount >= subtotal <==> subtotal >= 0
    ensures 50 * (amount - subtotal) <= subtotal < 50 * (amount - subtotal + 1)
  {
    subtotal + Surcharge(subtotal)
  }

  /** One product at 100 bought twice: subtotal 200, surcharge 4, amount 204. */
  lemma WidgetExample()
    ensures
      var lines := [PricedLine(Product("p1", "Widget", 100), 2)];
      Subtotal(lines) == 200 && Surcharge(Subtotal(lines)) == 4 && FinalAmount(Subtotal(lines)) == 204
  {
  }

  // ------------------------------------------------------ product snapshot

  /** Outcome of `Product.findById` once its fields are read: a missing
      product throws when `_id` is read from `null`. */
  function Resolve(found: Result<Option<Product>>): (r: Result<Product>)
    ensures r.Ok? <==> found.Ok? && found.value.Some?
    ensures r.Ok? ==> r.value == found.value.value
    ensures found.Err? ==> r == Err(found.message)
    ensures found == Ok(None) ==> r == Err(CannotRead("_id", "null"))
  {
    match found
    case Err(e) => Err(e)
    case Ok(None) => Err(CannotRead("_id", "null"))
    case Ok(Some(p)) => Ok(p)
  }

  /** The catalog lookups of the request, one per line, in order. They are
      all issued before any of them is awaited. */
  function Lookups(lines: seq<CartLine>): (trace: seq<Effect>)
    ensures |trace| == |lines|
    ensures forall i :: 0 <= i < |lines| ==> trace[i] == FindProduct(lines[i].product)
    decreases |lines|
  {
    if |lines| == 0 then [] else [FindProduct(lines[0].product)] + Lookups(lines[1..])
  }

  /** The populated items: the snapshot of each line's product with the
      requested quantity, or the error of the first line that fails. */
  function Populate(lines: seq<CartLine>, find: string -> Result<Option<Product>>): (r: Result<seq<PricedLine>>)
    ensures r.Ok? <==> forall i :: 0 <= i < |lines| ==> Resolve(find(lines[i].product)).Ok?
    ensures r.Ok? ==> |r.value| == |lines|
    ensures r.Ok? ==> forall i :: 0 <= i < |lines| ==>
      && r.value[i].product == Resolve(find(lines[i].product)).value
      && r.value[i].quantity == lines[i].quantity
    ensures r.Err? ==> exists k :: (0 <= k < |lines|
      && Resolve(find(lines[k].product)) == Err(r.message)
      && forall j :: 0 <= j < k ==> Resolve(find(lines[j].product)).Ok?)
    decreases |lines|
  {
    if |lines| == 0 then Ok([])
    else
      match Resolve(find(lines[0].product))
      case Err(e) => Err(e)
      case Ok(p) =>
        match Populate(lines[1..], find)
        case Err(e) =>
          var k :| 0 <= k < |lines[1..]|
            && Resolve(find(lines[1..][k].product)) == Err(e)
            && forall j :: 0 <= j < k ==> Resolve(find(lines[1..][j].product)).Ok?;
          assert forall j :: 0 <= j < k + 1 ==> Resolve(find(lines[j].product)).Ok? by {
            forall j | 0 <= j < k + 1
              ensures Resolve(find(lines[j].product)).Ok?
            {
              if j > 0 {
                assert lines[j] == lines[1..][j - 1];
              }
            }
          }
          assert lines[k + 1] == lines[1..][k];
          Err(e)
        case Ok(rest) => Ok([PricedLine(p, lines[0].quantity)] + rest)
  }

  /** The order items: each snapshot `{_id, name, offerPrice}` with its quantity. */
  function Snapshot(lines: seq<PricedLine>): (items: seq<Item>)
    ensures |items| == |lines|
    ensures forall i :: 0 <= i < |lines| ==> items[i] == Item(Some(lines[i].product), Some(lines[i].quantity))
  {
    seq(|lines|, i requires 0 <= i < |lines| => Item(Some(lines[i].product), Some(lines[i].quantity)))
  }

  /** The document handed to `Order.create`. */
  function DraftOf(userId: Option<string>, address: Address, lines: seq<PricedLine>, now: int): OrderDraft {
    OrderDraft(userId, Snapshot(lines), Some(FinalAmount(Subtotal(lines))), Some(address), Some(now), None)
  }

  // ----------------------------------------------------------------- intake

  /** No order is written and no cart is touched anywhere in `trace`. */
  predicate Quiet(trace: seq<Effect>) {
    forall k :: 0 <= k < |trace| ==> !trace[k].WriteOrders? && !trace[k].ClearCart?
  }

  lemma QuietAppend(a: seq<Effect>, b: seq<Effect>)
    requires Quiet(a) && Quiet(b)
    ensures Quiet(a + b)
  {
  }

  /** The three shapes an intake trace can take: nothing written; quiet
      calls followed by a failed write of `docs`; or quiet calls, a successful
      write of `docs` and then the cart reset. */
  predicate IntakeShape(trace: seq<Effect>, docs: seq<Order>) {
    var n := |trace|;
    || Quiet(trace)
    || (n >= 1 && Quiet(trace[..n - 1]) && trace[n - 1] == WriteOrders(docs, false))
    || (n >= 2 && Quiet(trace[..n - 2]) && trace[n - 2] == WriteOrders(docs, true) && trace[n - 1].ClearCart?)
  }

  /** In an intake trace the cart is reset right after a successful write and
      at no other time, a successful write is always followed by the reset,
      and every write is the write of `docs`. */
  lemma CartFollowsWrite(trace: seq<Effect>, docs: seq<Order>)
    requires IntakeShape(trace, docs)
    ensures forall k :: 0 <= k < |trace| && trace[k].ClearCart? ==>
      0 < k && trace[k - 1].WriteOrders? && trace[k - 1].ok
    ensures forall k :: 0 <= k < |trace| && trace[k].WriteOrders? && trace[k].ok ==>
      k + 1 < |trace| && trace[k + 1].ClearCart?
    ensures forall k :: 0 <= k < |trace| && trace[k].WriteOrders? ==> trace[k].docs == docs
  {
  }

  /** What follows the catalog lookups: nothing (the draft failed
      validation), a failed write, or a successful write of `docs` followed by
      the cart reset. */
  predicate TailShape(tail: seq<Effect>, docs: seq<Order>) {
    || tail == []
    || tail == [WriteOrders(docs, false)]
    || (|tail| == 2 && tail[0] == WriteOrders(docs, true) && tail[1].ClearCart?)
  }

  /** A quiet prefix followed by a tail of the shape above is an intake trace,
      and the tail's last effects stay last. */
  lemma ShapeCompose(prefix: seq<Effect>, tail: seq<Effect>, docs: seq<Order>)
    requires Quiet(prefix) && TailShape(tail, docs)
    ensures IntakeShape(prefix + tail, docs)
    ensures |tail| == 2 ==> (prefix + tail)[|prefix + tail| - 2] == tail[0] && (prefix + tail)[|prefix + tail| - 1] == tail[1]
  {
  }

  /** The document `Order.create` is given for a request whose products all
      resolve. */
  function IntendedDraft(userId: Option<string>, address: Address, lines: seq<CartLine>, now: int, db: Db): OrderDraft
    requires Populate(lines, db.findProduct).Ok?
  {
    DraftOf(userId, address, Populate(lines, db.findProduct).value, now)
  }

  /** Every collaborator of the intake succeeds: the connection, each catalog
      lookup, the schema validation, the write and the cart reset. */
  predicate AllSucceed(userId: Option<string>, address: Address, lines: seq<CartLine>, now: int, db: Db) {
    && db.connect.Pass?
    && Populate(lines, db.findProduct).Ok?
    && Validate(IntendedDraft(userId, address, lines, now, db)).Ok?
    && db.write(Intended(userId, address, lines, now, db)).Pass?
    && userId.Some? && db.clearCart(userId.value).Pass?
  }

  /** The single document `Order.create` writes for a request whose products
      all resolve. */
  function Intended(userId: Option<string>, address: Address, lines: seq<CartLine>, now: int, db: Db): seq<Order>
    requires Populate(lines, db.findProduct).Ok?
  {
    [Order(db.mintId(0), WithDefaults(IntendedDraft(userId, address, lines, now, db)))]
  }

  /** `Order.create(orderData)`, then the cart reset for the order's user. */
  function CreateAndClear(draft: OrderDraft, db: Db): (run: Run<IntakeReply>)
    ensures TailShape(run.trace, [Order(db.mintId(0), WithDefaults(draft))])
    // nothing is written exactly when the draft fails validation
    ensures run.trace == [] <==> Validate(draft).Err?
    ensures Validate(draft).Err? ==> run.result == Refused(ValidationFailed)
    // the write's and the reset's outcomes are what the store answered
    ensures Validate(draft).Ok? ==> run.trace[0].ok == db.write(run.trace[0].docs).Pass?
    ensures Validate(draft).Ok? && db.write(run.trace[0].docs).Fail? ==>
      run == Run(Refused(db.write(run.trace[0].docs).message), [run.trace[0]])
    ensures Validate(draft).Ok? && db.write(run.trace[0].docs).Pass? ==>
      && |run.trace| == 2 && draft.userId.Some?
      && run.trace[1] == ClearCart(draft.userId.value, db.clearCart(draft.userId.value).Pass?)
    ensures |run.trace| == 2 && db.clearCart(draft.userId.value).Fail? ==>
      run.result == Refused(db.clearCart(draft.userId.value).message)
    ensures run.result.Success() <==>
      |run.trace| == 2 && draft.userId.Some? && run.trace[1] == ClearCart(draft.userId.value, true)
    ensures run.result.Placed? ==> run.result.orderId == db.mintId(0)
  {
    var created := Create(db, draft);
    match created.result
    case Err(e) => Run(Refused(e), created.trace)
    case Ok(order) =>
      var uid := order.doc.userId.value;
      match db.clearCart(uid)
      case Fail(e) => Run(Refused(e), created.trace + [ClearCart(uid, false)])
      case Pass => Run(Placed(order.id), created.trace + [ClearCart(uid, true)])
  }

  /** After the input check: connect, look every product up, create the
      order, clear the cart. */
  function Checkout(userId: Option<string>, address: Address, lines: seq<CartLine>, now: int, db: Db): (run: Run<IntakeReply>)
    ensures Populate(lines, db.findProduct).Err? ==> run.result.Refused? && Quiet(run.trace)
    ensures Populate(lines, db.findProduct).Ok? ==> IntakeShape(run.trace, Intended(userId, address, lines, now, db))
    ensures run.result.Success() <==>
      && |run.trace| >= 2 && run.trace[|run.trace| - 2].WriteOrders? && run.trace[|run.trace| - 2].ok
      && userId.Some? && run.trace[|run.trace| - 1] == ClearCart(userId.value, true)
    ensures run.result.Placed? ==> run.result.orderId == db.mintId(0)
    // an exception from the connection or a lookup is the reply's message
    ensures db.connect.Fail? ==> run == Run(Refused(db.connect.message), [ConnectDb])
    ensures db.connect.Pass? && Populate(lines, db.findProduct).Err? ==>
      run == Run(Refused(Populate(lines, db.findProduct).message), [ConnectDb] + Lookups(lines))
    // after the lookups, the reply and the remaining effects are those of
    // creating the intended draft and clearing the cart
    ensures db.connect.Pass? && Populate(lines, db.findProduct).Ok? ==>
      var tail := CreateAndClear(IntendedDraft(userId, address, lines, now, db), db);
      run == Run(tail.result, [ConnectDb] + Lookups(lines) + tail.trace)
    // when every collaborator succeeds the order is placed under its `_id`
    ensures AllSucceed(userId, address, lines, now, db) ==> run.result == Placed(db.mintId(0))
  {
    match db.connect
    case Fail(e) => Run(Refused(e), [ConnectDb])
    case Pass =>
      var looked := [ConnectDb] + Lookups(lines);
      QuietAppend([ConnectDb], Lookups(lines));
      match Populate(lines, db.findProduct)
      case Err(e) => Run(Refused(e), looked)
      case Ok(priced) =>
        var draft := DraftOf(userId, address, priced, now);
        var tail := CreateAndClear(draft, db);
        ShapeCompose(looked, tail.trace, [Order(db.mintId(0), WithDefaults(draft))]);
        Run(tail.result, looked + tail.trace)
  }

  /** `POST /api/order/create`. `userId` comes from the identity provider,
      `body` is the parsed request (or the parse error), `now` is the clock. */
  function PlaceOrder(userId: Option<string>, body: Result<OrderRequest>, now: int, db: Db): (run: Run<IntakeReply>)
    // a request that fails the input check touches nothing
    ensures body.Err? ==> run == Run(Refused(body.message), [])
    ensures body.Ok? && (body.value.address.None? || body.value.items == Some([])) ==>
      run == Run(Refused(InvalidData), [])
    // a product that cannot be resolved stops the request before any write
    ensures !Resolvable(body, db) ==> run.result.Refused? && Quiet(run.trace)
    // otherwise the one write is that of the priced snapshot, and the cart
    // follows it
    ensures Resolvable(body, db) ==>
      IntakeShape(run.trace, Intended(userId, body.value.address.value, body.value.items.value, now, db))
    // success means the order was written and the caller's cart reset
    ensures run.result.Success() <==>
      && |run.trace| >= 2
      && run.trace[|run.trace| - 2].WriteOrders? && run.trace[|run.trace| - 2].ok
      && userId.Some? && run.trace[|run.trace| - 1] == ClearCart(userId.value, true)
    ensures run.result.Placed? ==> run.result.orderId == db.mintId(0)
    // a checked request whose collaborators all succeed is placed
    ensures (body.Ok? && body.value.address.Some? && body.value.items.Some? && |body.value.items.value| > 0
      && AllSucceed(userId, body.value.address.value, body.value.items.value, now, db)) ==>
        run.result == Placed(db.mintId(0))
    ensures body.Ok? && body.value.address.Some? && body.value.items.None? ==>
      run == Run(Refused(CannotRead("length", "undefined")), [])
    // a request that passes the input check is the checkout of its lines
    ensures (body.Ok? && body.value.address.Some? && body.value.items.Some? && |body.value.items.value| > 0) ==>
      run == Checkout(userId, body.value.address.value, body.value.items.value, now, db)
  {
    match body
    case Err(e) => Run(Refused(e), [])
    case Ok(req) =>
      if req.address.None? then Run(Refused(InvalidData), [])
      else if req.items.None? then Run(Refused(CannotRead("length", "undefined")), [])
      else if |req.items.value| == 0 then Run(Refused(InvalidData), [])
      else Checkout(userId, req.address.value, req.items.value, now, db)
  }

  /** The request passes the input check and every product resolves. */
  predicate Resolvable(body: Result<OrderRequest>, db: Db) {
    && body.Ok? && body.value.address.Some? && body.value.items.Some? && |body.value.items.value| > 0
    && Populate(body.value.items.value, db.findProduct).Ok?
  }

  /** The cart is reset only right after a successful write, a successful
      write is always followed by the reset, and on success the reply carries
      the `_id` of the written order. */
  lemma CartClearedOnlyAfterCreate(userId: Option<string>, body: Result<OrderRequest>, now: int, db: Db)
    ensures
      var run := PlaceOrder(userId, body, now, db);
      var trace := run.trace;
      && (forall k :: 0 <= k < |trace| && trace[k].ClearCart? ==>
            0 < k && trace[k - 1].WriteOrders? && trace[k - 1].ok)
      && (forall k :: 0 <= k < |trace| && trace[k].WriteOrders? && trace[k].ok ==>
            k + 1 < |trace| && trace[k + 1].ClearCart?)
      && (run.result.Placed? ==> trace[|trace| - 2].docs[0].id == run.result.orderId)
  {
  }

  /** A failure to reset the cart is reported as a failed placement although
      the order has already been written. */
  lemma ClearFailureAfterPersist(userId: Option<string>, body: Result<OrderRequest>, now: int, db: Db)
    requires
      var trace := PlaceOrder(userId, body, now, db).trace;
      |trace| > 0 && trace[|trace| - 1].ClearCart? && !trace[|trace| - 1].ok
    ensures
      var run := PlaceOrder(userId, body, now, db);
      && run.result.Refused?
      && run.trace[|run.trace| - 2].WriteOrders?
      && run.trace[|run.trace| - 2].ok
  {
  }

  /** The document of a request whose products all resolve snapshots every
      requested line, in order, with its catalog `_id`, name and price and the
      requested quantity; its amount is the subtotal plus a fiftieth of it,
      rounded down; its status is the schema default; user, address and date
      are the request's. */
  lemma IntendedPriced(userId: Option<string>, address: Address, lines: seq<CartLine>, now: int, db: Db)
    requires Populate(lines, db.findProduct).Ok?
    ensures
      var docs := Intended(userId, address, lines, now, db);
      var priced := Populate(lines, db.findProduct).value;
      var doc := docs[0].doc;
      && |docs| == 1
      && |doc.items| == |lines|
      && (forall i :: 0 <= i < |lines| ==>
            doc.items[i] == Item(Some(Resolve(db.findProduct(lines[i].product)).value), Some(lines[i].quantity)))
      && doc.amount == Some(LineSum(priced) + LineSum(priced) / 50)
      && doc.status == Some(DefaultStatus)
      && doc.userId == userId && doc.address == Some(address) && doc.date == Some(now)
  {
    SumFromIsLineSum(0, Populate(lines, db.findProduct).value);
  }

  /** A write happens only for a request whose products all resolve, and what
      it writes is that request's priced document. */
  lemma WrittenOrderPriced(userId: Option<string>, body: Result<OrderRequest>, now: int, db: Db)
    ensures
      var trace := PlaceOrder(userId, body, now, db).trace;
      forall k :: 0 <= k < |trace| && trace[k].WriteOrders? ==>
        && Resolvable(body, db)
        && trace[k].docs == Intended(userId, body.value.address.value, body.value.items.value, now, db)
  {
    var trace := PlaceOrder(userId, body, now, db).trace;
    if Resolvable(body, db) {
      CartFollowsWrite(trace, Intended(userId, body.value.address.value, body.value.items.value, now, db));
    }
  }
}

=== FILE: order_schema.dfy ===
/** The Mongoose `order` schema: the shape of a stored order, the fields it
    requires, and the `'Order Placed'` default for `status`. */
module OrderSchema {
  import opened Common

  /** Default applied to `status` when a document does not set it. */
  const DefaultStatus: string := "Order Placed"

  /** Message of the error Mongoose raises when a document misses a required
      path (the per-path detail of the real message is not modelled). */
  const ValidationFailed: string := "order validation failed"

  /** Shipping and contact details. A text field that is empty counts as
      missing, as Mongoose's `required` check does for strings. */
  datatype Address = Address(
    fullName: string,
    phoneNumber: string,
    email: string,
    pincode: Option<int>,
    area: string,
    city: string,
    state: string)

  /** What the `address` of a loaded document reads as. Mongoose gives a
      nested path that was never set an empty object, never `undefined`, so
      each of its fields reads `undefined` (here the empty text or `None`). */
  function StoredAddress(d: OrderDraft): Address {
    d.address.GetOr(Address("", "", "", None, "", "", ""))
  }

  /** The catalog snapshot `{_id, name, offerPrice}` captured at order time;
      prices are whole numbers of the store's price unit. */
  datatype Product = Product(id: string, name: string, offerPrice: int)

  /** `offerPrice * quantity`: what one line of an order costs. */
  function LineTotal(p: Product, quantity: int): int {
    p.offerPrice * quantity
  }

  /** One order line as it travels between the intake, the events and the store. */
  datatype Item = Item(product: Option<Product>, quantity: Option<int>)

  /** A document handed to `Order.create` or `Order.insertMany`. */
  datatype OrderDraft = OrderDraft(
    userId: Option<string>,
    items: seq<Item>,
    amount: Option<int>,
    address: Option<Address>,
    date: Option<int>,
    status: Option<string>)

  /** A persisted order: the `_id` assigned at persistence and the validated
      document. */
  datatype Order = Order(id: string, doc: OrderDraft)

  predicate Present(s: string) {
    |s| > 0
  }

  predicate AddressComplete(a: Address) {
    && Present(a.fullName)
    && Present(a.phoneNumber)
    && Present(a.email)
    && a.pincode.Some?
    && Present(a.area)
    && Present(a.city)
    && Present(a.state)
  }

  predicate ItemComplete(it: Item) {
    it.product.Some? && it.quantity.Some?
  }

  /** Mongoose fills an unset `status` with its default before validating. */
  function WithDefaults(d: OrderDraft): (r: OrderDraft)
    ensures r.status.Some?
    ensures d.status.None? ==> r.status == Some(DefaultStatus)
    ensures d.status.Some? ==> r == d
    ensures r.(status := d.status) == d
  {
    d.(status := Some(d.status.GetOr(DefaultStatus)))
  }

  /** Every required path of the schema holds a value (after defaults). */
  predicate Conforms(d: OrderDraft) {
    && d.userId.Some? && Present(d.userId.value)
    && (forall i :: 0 <= i < |d.items| ==> ItemComplete(d.items[i]))
    && d.amount.Some?
    && d.address.Some? && AddressComplete(d.address.value)
    && d.date.Some?
    && d.status.Some? && Present(d.status.value)
  }

  /** Schema validation as `Order.create`/`insertMany` perform it: apply the
      defaults, then reject a document missing any required path. */
  function Validate(d: OrderDraft): (r: Result<OrderDraft>)
    ensures r.Ok? <==>
      && d.userId.Some? && d.userId.value != ""
      && (forall i :: 0 <= i < |d.items| ==> d.items[i].product.Some? && d.items[i].quantity.Some?)
      && d.amount.Some?
      && d.date.Some?
      && d.address.Some?
      && d.address.value.fullName != ""
      && d.address.value.phoneNumber != ""
      && d.address.value.email != ""
      && d.address.value.pincode.Some?
      && d.address.value.area != ""
      && d.address.value.city != ""
      && d.address.value.state != ""
      && (d.status.None? || d.status.value != "")
    ensures r.Ok? ==> r.value.status == Some(if d.status.None? then DefaultStatus else d.status.value)
    ensures r.Ok? ==> r.value.(status := d.status) == d
    ensures r.Err? ==> r.message == ValidationFailed
  {
    var e := WithDefaults(d);
    if Conforms(e) then Ok(e) else Err(ValidationFailed)
  }

  /** A validated document validates again to itself: the default is applied
      once and validation adds nothing further. */
  lemma ValidateIdempotent(d: OrderDraft)
    requires Validate(d).Ok?
    ensures Validate(Validate(d).value) == Validate(d)
  {
  }
}

=== FILE: status_email.dfy ===
/** The status-mail endpoint (`POST /api/order/send-status-email`): check the
    input, look the order up, send the status mail, and report the send. */
module StatusEmail {
  import opened Common
  import opened OrderSchema
  import opened Effects
  import opened Store
  import EmailService

  const MissingFields: string := "Order ID and status are required"
  const OrderNotFound: string := "Order not found"
  const EmailSentMessage: string := "Status email sent successfully"
  const EmailFailedMessage: string := "Failed to send email"

  /** The JSON body `{orderId, newStatus}`; an empty text stands for a
      missing (falsy) field. */
  datatype StatusRequest = StatusRequest(orderId: string, newStatus: string)

  /** `{success: true, message, messageId}`, `{success: false, message,
      error}` after a failed send, or `{success: false, message}`. */
  datatype StatusReply = EmailSent(messageId: string) | EmailFailed(error: string) | Refused(message: string) {
    predicate Success() {
      EmailSent?
    }

    function Message(): string {
      match this
      case EmailSent(_) => EmailSentMessage
      case EmailFailed(_) => EmailFailedMessage
      case Refused(m) => m
    }
  }

  /** The reply that reports a send result: success and failure carried over,
      with the message id or the error passed through. */
  function ReplyOf(sent: SendResult): (reply: StatusReply)
    ensures reply.Success() <==> sent.Success()
    ensures sent.Delivered? ==> reply == EmailSent(sent.messageId)
    ensures sent.NotDelivered? ==> reply == EmailFailed(sent.error)
  {
    match sent
    case Delivered(id) => EmailSent(id)
    case NotDelivered(e) => EmailFailed(e)
  }

  /** `POST /api/order/send-status-email`; `body` is the parsed request or
      the parse error. */
  function SendStatusEmail(body: Result<StatusRequest>, db: Db, deliver: Mail -> Result<string>): (run: Run<StatusReply>)
    ensures body.Err? ==> run == Run(Refused(body.message), [])
    // a missing field: no lookup, no send
    ensures body.Ok? && (body.value.orderId == "" || body.value.newStatus == "") ==>
      run == Run(Refused(MissingFields), [])
    // an unknown order never reaches the transport
    ensures (body.Ok? && body.value.orderId != "" && body.value.newStatus != ""
      && db.connect.Pass? && db.findOrder(body.value.orderId) == Ok(None)) ==>
        run == Run(Refused(OrderNotFound), [ConnectDb, FindOrder(body.value.orderId)])
    // a mail is attempted only for a found order: to its address, about its
    // `_id`, with the new status
    ensures forall k :: 0 <= k < |run.trace| && run.trace[k].Deliver? ==>
      && k == 2 && |run.trace| == 3
      && body.Ok? && db.findOrder(body.value.orderId).Ok? && db.findOrder(body.value.orderId).value.Some?
      && var order := db.findOrder(body.value.orderId).value.value;
      && run.trace[k].mail.to == StoredAddress(order.doc).email
      && run.trace[k].mail.subject == EmailService.StatusSubject + order.id
      && run.trace[k].mail.body.StatusBody?
      && run.trace[k].mail.body.newStatus == body.value.newStatus
    // a connection or lookup exception becomes `{success: false, message}`
    ensures (body.Ok? && body.value.orderId != "" && body.value.newStatus != "" && db.connect.Fail?) ==>
      run == Run(Refused(db.connect.message), [ConnectDb])
    ensures (body.Ok? && body.value.orderId != "" && body.value.newStatus != ""
      && db.connect.Pass? && db.findOrder(body.value.orderId).Err?) ==>
        run == Run(Refused(db.findOrder(body.value.orderId).message), [ConnectDb, FindOrder(body.value.orderId)])
    // a found order always reaches the transport, even one stored without
    // an address, and the reply reports that send
    ensures (body.Ok? && body.value.orderId != "" && body.value.newStatus != ""
      && db.connect.Pass? && db.findOrder(body.value.orderId).Ok? && db.findOrder(body.value.orderId).value.Some?) ==>
        var order := db.findOrder(body.value.orderId).value.value;
        var sent := EmailService.SendStatus(EmailService.StatusData(Some(StoredAddress(order.doc)), order.id), body.value.newStatus, deliver);
        && |run.trace| == 3 && run.trace[2].Deliver?
        && run.result == ReplyOf(sent.result)
        && run.trace == [ConnectDb, FindOrder(body.value.orderId)] + sent.trace
    // the reply reports the send
    ensures run.result.Success() <==> |run.trace| == 3 && run.trace[2].Deliver? && run.trace[2].ok
    ensures run.result.EmailSent? ==>
      |run.trace| == 3 && run.trace[2].Deliver? && deliver(run.trace[2].mail) == Ok(run.result.messageId)
    ensures run.result.EmailFailed? ==>
      |run.trace| == 3 && run.trace[2].Deliver? && deliver(run.trace[2].mail) == Err(run.result.error)
  {
    match body
    case Err(e) => Run(Refused(e), [])
    case Ok(req) =>
      if req.orderId == "" || req.newStatus == "" then Run(Refused(MissingFields), [])
      else
        match db.connect
        case Fail(e) => Run(Refused(e), [ConnectDb])
        case Pass =>
          var looked := [ConnectDb, FindOrder(req.orderId)];
          match db.findOrder(req.orderId)
          case Err(e) => Run(Refused(e), looked)
          case Ok(None) => Run(Refused(OrderNotFound), looked)
          case Ok(Some(order)) =>
            var sent := EmailService.SendStatus(EmailService.StatusData(Some(StoredAddress(order.doc)), order.id), req.newStatus, deliver);
            Run(ReplyOf(sent.result), looked + sent.trace)
  }
}

=== FILE: store.dfy ===
/** The persistence collaborators of the pipeline, made abstract: the
    database connection, the catalog and order lookups, the write of order
    documents, the `_id`s Mongoose assigns, and the cart reset on the user
    record. Each returns a value or a failure. `Order.create` and
    `Order.insertMany` are modelled on top of them: schema validation first,
    then one write. */
module Store {
  import opened Common
  import opened OrderSchema
  import opened Effects

  datatype Db = Db(
    /** `connectDB()` */
    connect: Outcome,
    /** `Product.findById(ref)`: the product, `null`, or a thrown error */
    findProduct: string -> Result<Option<Product>>,
    /** `Order.findById(id)` */
    findOrder: string -> Result<Option<Order>>,
    /** the `_id` given to the i-th document of a write */
    mintId: nat -> string,
    /** the database write of already validated documents */
    write: seq<Order> -> Outcome,
    /** `User.findById(userId)`, `cartItems = {}`, `save()` */
    clearCart: string -> Outcome)

  /** `Order.create(draft)`: a draft that fails validation is rejected before
      anything is written; otherwise exactly one write is attempted. */
  function Create(db: Db, draft: OrderDraft): (run: Run<Result<Order>>)
    ensures Validate(draft).Err? ==> run == Run(Err(ValidationFailed), [])
    ensures Validate(draft).Ok? ==>
      var order := Order(db.mintId(0), Validate(draft).value);
      run.trace == [WriteOrders([order], run.result.Ok?)]
    ensures run.result.Ok? ==>
      && Validate(draft).Ok?
      && run.result.value == Order(db.mintId(0), Validate(draft).value)
      && db.write([run.result.value]).Pass?
    ensures Validate(draft).Ok? && run.result.Err? ==>
      db.write([Order(db.mintId(0), Validate(draft).value)]) == Fail(run.result.message)
  {
    match Validate(draft)
    case Err(e) => Run(Err(e), [])
    case Ok(doc) =>
      var order := Order(db.mintId(0), doc);
      match db.write([order])
      case Pass => Run(Ok(order), [WriteOrders([order], true)])
      case Fail(e) => Run(Err(e), [WriteOrders([order], false)])
  }

  /** Every draft of a batch passes validation. */
  predicate AllValid(drafts: seq<OrderDraft>) {
    forall i :: 0 <= i < |drafts| ==> Validate(drafts[i]).Ok?
  }

  /** The documents `insertMany` builds from valid drafts: the i-th draft gets
      the i-th minted `_id`. */
  function Documents(db: Db, drafts: seq<OrderDraft>): (orders: seq<Order>)
    requires AllValid(drafts)
    ensures |orders| == |drafts|
    ensures forall i :: 0 <= i < |drafts| ==> orders[i] == Order(db.mintId(i), Validate(drafts[i]).value)
  {
    seq(|drafts|, i requires 0 <= i < |drafts| => Order(db.mintId(i), Validate(drafts[i]).value))
  }

  /** `Order.insertMany(drafts)` in its default ordered mode: one invalid
      draft rejects the whole batch before anything is written; otherwise
      the whole batch is written at once and the created orders come back in
      the order of the drafts. */
  function InsertMany(db: Db, drafts: seq<OrderDraft>): (run: Run<Result<seq<Order>>>)
    ensures !AllValid(drafts) ==> run == Run(Err(ValidationFailed), [])
    ensures AllValid(drafts) ==> run.trace == [WriteOrders(Documents(db, drafts), run.result.Ok?)]
    ensures run.result.Ok? ==>
      && AllValid(drafts)
      && |run.result.value| == |drafts|
      && db.write(run.result.value).Pass?
      && forall i :: 0 <= i < |drafts| ==>
           && run.result.value[i].id == db.mintId(i)
           && Validate(drafts[i]) == Ok(run.result.value[i].doc)
    ensures AllValid(drafts) && run.result.Err? ==> db.write(Documents(db, drafts)) == Fail(run.result.message)
  {
    if !AllValid(drafts) then Run(Err(ValidationFailed), [])
    else
      var orders := Documents(db, drafts);
      match db.write(orders)
      case Pass => Run(Ok(orders), [WriteOrders(orders, true)])
      case Fail(e) => Run(Err(e), [WriteOrders(orders, false)])
  }
}
